=== FILE: README.md ===
# Facedancer USB device control plane, in Dafny

This project models the control plane of an emulated Facedancer USB device: the
`USBBaseDevice` class and the standard request handlers of `USBDevice` in
`facedancer/future/device.py`. It proves properties of that model.

The device holds two pieces of protocol state, its bus `address` and its
active `configuration`, plus the suggestion records it keeps for requests
nobody handled. Everything it does that is visible from outside goes into
`UsbDevice.trace` as an `Event`, in order:

- calls on its backend: `send_on_endpoint`, `stall_endpoint`, `set_address`,
  `configured`, `reset`;
- the terminal actions of the current control request: reply, acknowledge,
  stall;
- hand-offs to the active configuration or to an endpoint;
- the device's own unexpected-data paths.

Modules:

- `UsbTypes` (`usb_types.dfy`): bytes and 16-bit fields, the decoded control
  request, configurations and endpoints, and the trace events.
- `PacketFraming` (`packets.dfy`): how `_send_in_packets` cuts an IN payload
  into max-packet-size pieces.
- `Descriptors` (`descriptors.dfy`):
  - the 18-byte device descriptor and string descriptor zero (the
    language-ID list), each with a parser that reads it back in the encoder's byte order;
  - the mapping from descriptor index to configuration number;
  - the descriptor producers (bytes, None, a callable of the index, or one of
    the device's bound methods);
  - the outcome of the generic GET_DESCRIPTOR handler as a function.
- `StandardRequests` (`standard_requests.dfy`):
  - the device-level handler table of `USBDevice`;
  - the effect of each of its eleven standard handlers (sections 9.4.1-9.4.11
    of the USB 2.0 specification) as a function `StandardStep` from the state
    before to the state after and the events emitted.
- `Device` (`device.dfy`): the class `UsbDevice`, with the mutable fields of the
  source. Its methods carry the loops of the source and are proved against the
  functions above:
  - the packet-chunking `while` loop;
  - the `for` loop that builds the language list;
  - the `while callable(response)` loop of GET_DESCRIPTOR.

A Python exception escaping an operation is modelled as an explicit outcome
(`Raises`, `Raised`, `Faulted`, `None` or a `raised` flag) that adds nothing to
the trace. These exceptions are:

- a `bytearray` refusing a value outside 0..255;
- `to_bytes` overflowing;
- a `KeyError` for a missing configuration;
- calling `send` on a missing endpoint;
- an exception raised by a user-supplied descriptor callable.

SET_ADDRESS waits for its blocking acknowledge to complete and then calls
`set_address(value, defer=False)` (device.py:756-757). The address therefore
changes after the status stage, as section 9.4.6 of the USB 2.0 specification
asks, and no deferral is needed (device.py:601-604).

The model follows the code where the code departs from USB 2.0 conventions:

- `usb_spec_version` and `device_revision` are written high byte first
  (device.py:618-619, 628-629), whereas section 9.6.1 of the USB 2.0
  specification lays bcdUSB and bcdDevice out little-endian like the other
  two-byte fields. The vendor and product IDs are written low byte first.
- The subordinates asked after the device's own handlers are all the
  configurations (device.py:456-458), although only the active configuration
  is in use on the bus. The model keeps their answer abstract, so this does not
  show in it.

## Model

| member | source | states |
|---|---|---|
| Device.UsbDevice.constructor | facedancer/future/device.py:81-112 | a new device is at address 0, unconfigured, with no suggestions and an empty trace; the DEVICE, CONFIGURATION and STRING producers are registered over any user-supplied ones |
| Device.UsbDevice.Stall | facedancer/future/device.py:186-196 | one backend stall of the given endpoint, endpoint 0 direction OUT by default |
| Device.UsbDevice.GetEndpoint | facedancer/future/device.py:254-268 | None while unconfigured; an endpoint exactly when the active configuration has one under that number and direction, and (its endpoints being held under their own number and direction) that endpoint has the requested number and direction |
| Device.UsbDevice.Send | facedancer/future/device.py:201-220 | endpoint 0 gets one unchunked backend send; another endpoint is handed to the active configuration's IN endpoint; nothing is sent while unconfigured; a configured device without the endpoint raises |
| Device.UsbDevice.SendInPackets | facedancer/future/device.py:223-251 | empty data gives exactly one zero-length send, whatever the packet size; otherwise (P > 0) the trace gains exactly one backend send per packet of `Packets(data, P)`, in order, on the same endpoint with the same blocking flag |
| PacketFraming.Packets | facedancer/future/device.py:223-251 | empty data gives exactly one zero-length packet; otherwise there are ceil(L/P) packets, each non-empty and at most P bytes, all but the last exactly P; in order they make up the data |
| PacketFraming.ChunksShape | facedancer/future/device.py:247-251 | the chunking loop yields ceil(L/P) packets, each of 1..P bytes, all but the last of P bytes |
| PacketFraming.ChunksConcat | facedancer/future/device.py:247-251 | the chunks laid end to end are the payload |
| PacketFraming.CeilDivBounds | facedancer/future/device.py:247-251 | the packet count k is the least with L <= k*P |
| PacketFraming.Sends | facedancer/future/device.py:247-251 | one backend send per packet |
| PacketFraming.SendsAt | facedancer/future/device.py:247-251 | send i is on the given endpoint with packet i and the given blocking flag |
| PacketFraming.SendsAppend | facedancer/future/device.py:247-251 | the sends of two runs of packets are the sends of each, one after the other |
| Device.UsbDevice.HandleNak | facedancer/future/device.py:283-293 | an IN endpoint of the active configuration gets the data request; otherwise it takes the unexpected-data-requested path |
| Device.UsbDevice.HandleBufferAvailable | facedancer/future/device.py:296-304 | an IN endpoint of the active configuration is passed on as buffer-empty; otherwise nothing happens |
| Device.UsbDevice.HandleDataAvailable | facedancer/future/device.py:307-317 | an OUT endpoint of the active configuration receives the data; otherwise the data takes the unexpected-data path |
| Device.UsbDevice.HandleBusReset | facedancer/future/device.py:324-332 | the device is back at address 0 with no configuration, and the backend resets exactly once |
| Device.UsbDevice.HandleRequest | facedancer/future/device.py:335-356 | a request the device-level table claims has exactly the effect `StandardStep` gives it and adds no stall and no suggestion; one the subordinates handle changes nothing; one nobody claims adds exactly one stall of endpoint 0 direction OUT, records its key and overwrites that key's metadata, and leaves address and configuration alone |
| Device.UsbDevice.HandleDataReceived | facedancer/future/device.py:359-380 | the active configuration receives the data; while unconfigured it goes to the unexpected-data path with the endpoint's number |
| Device.UsbDevice.HandleUnexpectedDataReceived | facedancer/future/device.py:383-394 | the unexpected-data path is taken once, with the endpoint number and the data |
| Device.UsbDevice.HandleDataRequested | facedancer/future/device.py:397-417 | the active configuration gets the data request; while unconfigured it goes to the unexpected-data-requested path |
| Device.UsbDevice.HandleUnexpectedDataRequested | facedancer/future/device.py:420-430 | the unexpected-data-requested path is taken once |
| Device.UsbDevice.HandleBufferEmpty | facedancer/future/device.py:433-445 | the active configuration gets the buffer-empty event; nothing happens while unconfigured |
| Device.UsbDevice.AddRequestSuggestion | facedancer/future/device.py:465-480 | the suggestion set gains (direction, type, recipient, number) and that key's metadata becomes this request's length and data; every suggestion keeps its metadata |
| Device.UsbDevice.SetAddress | facedancer/future/device.py:596-607 | the address becomes the given one and the backend is told it once, with the given defer flag |
| Descriptors.DeviceDescriptor | facedancer/future/device.py:610-635 | `get_descriptor`: the descriptor exists exactly when every unmasked field is in 0..255 (otherwise `bytearray` raises); it is then 18 bytes, starting 18, 1 and ending with the configuration count |
| Descriptors.DeviceDescriptorRoundTrip | facedancer/future/device.py:610-635 | reading the descriptor back gives every field: the USB version and device revision high byte first, vendor and product IDs low byte first, each reduced to 16 bits |
| Descriptors.LowBitsWord | facedancer/future/device.py:614-625 | the two masked bytes written for an int are the bytes of its low 16 bits |
| Descriptors.SplitWord | facedancer/future/device.py:614-625 | a 16-bit value is its high byte times 256 plus its low byte |
| Descriptors.DefaultDeviceDescriptor | facedancer/future/device.py:56-74 | with the default fields the descriptor is 18 1 00 02 00 00 00 40 0b 61 53 46 00 00 followed by the three string indices and the configuration count |
| Descriptors.ConfigurationDescriptor | facedancer/future/device.py:638-643 | `get_configuration_descriptor`: with configurations held under their numbers, index i gives the descriptor of the configuration numbered i+1, and raises exactly when there is none |
| Descriptors.LanguageBytes | facedancer/future/device.py:654-655 | two bytes per language |
| Descriptors.LanguageBytesAt | facedancer/future/device.py:654-655 | language i occupies bytes 2i (low byte) and 2i+1 (high byte) of the list |
| Descriptors.LanguageDescriptor | facedancer/future/device.py:646-657 | string descriptor zero exists exactly when there are at most 126 languages (2+2k < 256) and every ID fits 16 bits; it is then 2+2k bytes, byte 0 is that length and byte 1 the STRING tag |
| Descriptors.LanguageDescriptorLayout | facedancer/future/device.py:654-655 | language i sits at bytes 2+2i (low byte) and 3+2i (high byte) of string descriptor zero |
| Descriptors.DefaultLanguageDescriptor | facedancer/future/device.py:69-71 | the default language list, English (United States) alone, gives 04 03 09 04 |
| Descriptors.LanguageDescriptorRoundTrip | facedancer/future/device.py:646-657 | reading string descriptor zero back gives the language list |
| Device.UsbDevice.HandleGetSupportedLanguagesDescriptor | facedancer/future/device.py:646-657 | the byte-by-byte construction equals `LanguageDescriptor`, and raises (None) exactly where it does |
| Descriptors.CallBound | facedancer/future/device.py:89-94 | calling one of the device's bound producers never yields another callable |
| Descriptors.Resolve | facedancer/future/device.py:683-684 | the `while callable` loop ends in a non-callable result or a raise |
| Descriptors.PlainNeverRaises | facedancer/future/device.py:683-684 | a producer made only of bytes, None and callables that never raise (no bound producer, no `Failing`) always resolves to a result: only a bound producer or a raising user callable can make GET_DESCRIPTOR raise |
| Descriptors.UserProducerRaises | facedancer/future/device.py:683-684 | a user-supplied callable that raises for the requested index makes the whole request raise, with no reply and no stall |
| Descriptors.ResolveChain | facedancer/future/device.py:683-684 | a chain of callables of any depth resolves to what its last link returns |
| Descriptors.GetDescriptorReply | facedancer/future/device.py:669-694 | the reply is never longer than the host asked for, and a type with no producer stalls |
| Descriptors.GetDescriptorReplyContract | facedancer/future/device.py:669-694 | a reply is sent exactly when the resolved result is non-empty bytes, and it is the first min(requested length, length) bytes of it, never padded; the request raises exactly when resolving raises; any other result (None or empty bytes) stalls |
| Descriptors.StringDescriptor | facedancer/future/device.py:660-666 | `get_string_descriptor`: index 0 gives string descriptor zero and raises exactly when that cannot be built; any other index never raises and gives non-empty bytes exactly when the string table holds non-empty bytes under it |
| Descriptors.BoundProducersReply | facedancer/future/device.py:660-666 | DEVICE gives the device descriptor; CONFIGURATION index i gives configuration i+1's descriptor and raises when there is none; STRING index 0 gives the language list and any other index the string table's entry, stalling when there is none |
| Device.BoundTable | facedancer/future/device.py:91-95 | the device's DEVICE, CONFIGURATION and STRING producers replace any user entries for those types, and every other user entry is kept |
| Device.UsbDevice.ValidDescriptorRequests | facedancer/future/device.py:89-95 | on a consistent device, DEVICE gives its own descriptor, whose last byte is the number of configurations; CONFIGURATION index i raises exactly when no configuration is numbered i+1; STRING index 0 gives the supported languages |
| Device.UsbDevice.HandleGenericGetDescriptorRequest | facedancer/future/device.py:669-694 | the loop's result, the reply or stall it emits and whether it raises are those of `GetDescriptorReply` |
| StandardRequests.StandardTableClaims | facedancer/future/device.py:725-854 | `USBDevice` claims exactly the STANDARD, device-recipient requests numbered 0, 1, 3, 5-12; `USBBaseDevice` claims none |
| StandardRequests.OneTerminalAction | facedancer/future/device.py:725-854 | every standard handler that finishes ends the transfer exactly once (reply, acknowledge or stall); one that raises emits nothing |
| StandardRequests.StandardStep | facedancer/future/device.py:725-854 | only SET_ADDRESS changes the address, only SET_CONFIGURATION the configuration, and only GET_DESCRIPTOR and GET_CONFIGURATION can raise, emitting nothing when they do |
| StandardRequests.DeviceHandlerFor | facedancer/future/device.py:725-854 | a device-level handler claims a request exactly when it is a STANDARD request to the device whose number is in the table, and the claimant is the table's handler for that number; with `USBDevice`'s table the claimant is the handler whose decorator declares that request number |
| StandardRequests.StandardHandlerNumbers | facedancer/future/device.py:725-851 | every handler of `USBDevice` is held under the request number its decorator declares, and each of the eleven handlers is in the table |
| StandardRequests.SetAddressAcknowledgesFirst | facedancer/future/device.py:752-757 | SET_ADDRESS emits a blocking acknowledge, then the backend address change to the request's value with defer false, and the address becomes that value |
| StandardRequests.SetConfigurationContract | facedancer/future/device.py:794-816 | value 0 deconfigures and acknowledges; a known n selects configuration n and acknowledges; an unknown n stalls and keeps the selection; then the backend hears of the selection; the address is untouched |
| StandardRequests.SetConfigurationIdempotent | facedancer/future/device.py:794-816 | repeating SET_CONFIGURATION has the same effect again |
| StandardRequests.SetThenGetConfiguration | facedancer/future/device.py:778-816 | after SET_CONFIGURATION(n), for 0 or a known n below 256, GET_CONFIGURATION replies [n] (a larger n makes `to_bytes(1)` raise) |
| StandardRequests.InterfaceRequests | facedancer/future/device.py:819-846 | GET_INTERFACE replies [0] iff configured with that interface and stalls otherwise; SET_INTERFACE acknowledges iff the interface is 0 and stalls otherwise |
| Device.UsbDevice.HandleGetStatusRequest | facedancer/future/device.py:725-733 | replies [3, 0] (self-powered, remote wakeup) |
| Device.UsbDevice.HandleClearFeatureRequest | facedancer/future/device.py:736-741 | acknowledges |
| Device.UsbDevice.HandleSetFeatureRequest | facedancer/future/device.py:744-749 | stalls |
| Device.UsbDevice.HandleSetAddressRequest | facedancer/future/device.py:752-757 | blocking acknowledge first, then the new address and its undeferred backend call |
| Device.UsbDevice.HandleGetDescriptorRequest | facedancer/future/device.py:760-766 | the outcome of the generic GET_DESCRIPTOR handler |
| Device.UsbDevice.HandleSetDescriptorRequest | facedancer/future/device.py:770-775 | stalls |
| Device.UsbDevice.HandleGetConfigurationRequest | facedancer/future/device.py:778-791 | replies [0] while unconfigured and [number] otherwise; a number outside 0..255 raises and emits nothing |
| Device.UsbDevice.HandleSetConfigurationRequest | facedancer/future/device.py:794-816 | the new configuration and the acknowledge-or-stall followed by the backend notification, for 0, a known and an unknown value |
| Device.UsbDevice.HandleGetInterfaceRequest | facedancer/future/device.py:819-831 | replies [0] when configured with that interface, stalls otherwise |
| Device.UsbDevice.HandleSetInterfaceRequest | facedancer/future/device.py:834-846 | acknowledges interface 0, stalls any other |
| Device.UsbDevice.HandleSynchFrameRequest | facedancer/future/device.py:849-854 | acknowledges |
| Device.UsbDevice.HandleStandardRequest | facedancer/future/device.py:725-854 | running the claimed handler changes the address, the configuration and the trace exactly as `StandardStep` says |

## Left out

- `connect`, `disconnect`, `run`, `run_with` and `emulate` are left out. They are the asyncio run loop, backend construction and interrupt handling: I/O and cooperative concurrency.
- `add_configuration` is left out. The configurations are a constructor input held under their own numbers; the parent link it sets belongs to `USBConfiguration`.
- `create_request` and `USBControlRequest.from_raw_bytes` are left out. Requests come in already decoded as `ControlRequest`. Reserved recipient codes are not represented.
- `_print_suggested_requests`, `print_suggested_additions` and every `logging` call are left out: they are user-facing output only.
- `instantiate_subordinates` and `get_request_handler_methods` are left out. These are reflection over class attributes. Their results are constructor inputs instead: the user descriptors, the configurations, and the handler table (`StandardHandlerTable()` for a `USBDevice`, empty for a `USBBaseDevice`).
- Device.UsbDevice.HandleRequest: the subordinates' matching and dispatch is abstract. It is given as the `subordinatesHandled` input, and whatever the subordinates emit is not in the trace. The matching rules and dispatch live in `request.py`, which is not part of this model.
- `USBConfiguration`, `USBInterface` and `USBEndpoint` are not part of this model. A configuration is its number, its interface numbers, its endpoints keyed by (number, direction) and its descriptor bytes. Hand-offs to it are trace events. Configuration and endpoint objects are taken to be truthy.
- `USBConfiguration.get_endpoint` is modelled as a lookup in a map keyed by (number, direction). The device requires each configuration's endpoints to be held under their own number and direction (`EndpointsKeyed`), which is what a search by number and direction finds.
- `StringDescriptorManager` is not part of this model. It is given as an index function (`get_index`) and a table of descriptor bytes by index. An index the table does not hold is taken to give None, so the request stalls.
- Device.UsbDevice.SendInPackets requires a packet size above 0 when the data is not empty. With a size of 0 or less the source's loop can run forever on non-empty data; empty data is sent as one zero-length packet before the loop, whatever the size.
- The backend's hardware behaviour is not modelled: its calls are recorded as trace events only.
- Descriptors.Resolve: a callable is represented by its results for the 256 possible indices. A callable that raises is `Failing`, or has `Failing` among its results for the indices where it raises. Callables that keep state between calls, or that return a different callable on each call without end, are outside the model.

=== FILE: descriptors.dfy ===
/** Descriptor encodings and the generic GET_DESCRIPTOR handler (sections 9.4.3,
    9.6.1 and 9.6.7 of the USB 2.0 specification), as the device builds them:
    the 18-byte device descriptor, string descriptor zero (the language-ID list),
    the index-to-configuration mapping, and the resolution of a chain of
    descriptor producers down to the bytes of the reply. */
module Descriptors {
  import opened UsbTypes

  const DEVICE_DESCRIPTOR_LENGTH: byte := 0x12

  /** The device fields that go into the device descriptor, as the Python ints
      the device holds (nothing bounds them until the descriptor is built). */
  datatype DeviceFields = DeviceFields(
    usbSpecVersion: int,
    deviceClass: int,
    deviceSubclass: int,
    protocolRevisionNumber: int,
    maxPacketSizeEp0: int,
    vendorId: int,
    productId: int,
    deviceRevision: int)

  /** The defaults of a device that overrides nothing. The USB version 0x0002,
      written high byte first, puts bcdUSB 2.00 on the wire. */
  const DEFAULT_FIELDS := DeviceFields(0x0002, 0, 0, 0, 64, 0x610b, 0x4653, 0)

  /** The fields a device descriptor carries, as `ParseDeviceDescriptor` reads them back. */
  datatype DeviceDescriptorFields = DeviceDescriptorFields(
    fields: DeviceFields,
    manufacturerIndex: int,
    productIndex: int,
    serialIndex: int,
    configurationCount: int)

  /** Every field that `get_descriptor` writes into the byte array unmasked is a
      byte; otherwise building the `bytearray` raises. */
  predicate DeviceDescriptorEncodable(d: DeviceDescriptorFields)
  {
    IsByte(d.fields.deviceClass) && IsByte(d.fields.deviceSubclass) &&
    IsByte(d.fields.protocolRevisionNumber) && IsByte(d.fields.maxPacketSizeEp0) &&
    IsByte(d.manufacturerIndex) && IsByte(d.productIndex) && IsByte(d.serialIndex) &&
    IsByte(d.configurationCount)
  }

  /** `get_descriptor`: the device descriptor, or None where the byte array
      cannot be built (an unmasked field outside 0..255). The USB version and the
      device revision go high byte first, the vendor and product IDs low byte
      first, as the code writes them. */
  function DeviceDescriptor(d: DeviceDescriptorFields): (r: Option<seq<byte>>)
    ensures r.Some? <==> DeviceDescriptorEncodable(d)
    ensures r.Some? ==> |r.value| == 18 && r.value[0] == 18 && r.value[1] == 1 &&
                        r.value[17] == d.configurationCount
  {
    if DeviceDescriptorEncodable(d) then
      var f := d.fields;
      Some([DEVICE_DESCRIPTOR_LENGTH, DEVICE_DESCRIPTOR,
            High(f.usbSpecVersion), Low(f.usbSpecVersion),
            f.deviceClass, f.deviceSubclass, f.protocolRevisionNumber, f.maxPacketSizeEp0,
            Low(f.vendorId), High(f.vendorId),
            Low(f.productId), High(f.productId),
            High(f.deviceRevision), Low(f.deviceRevision),
            d.manufacturerIndex, d.productIndex, d.serialIndex,
            d.configurationCount])
    else None
  }

  /** The inverse of `DeviceDescriptor`: reads the fields back in the byte order
      the encoder writes them, so bcdUSB and bcdDevice high byte first (a host
      would read those two little-endian). */
  function ParseDeviceDescriptor(b: seq<byte>): Option<DeviceDescriptorFields>
  {
    if |b| == 18 && b[0] == 18 && b[1] == DEVICE_DESCRIPTOR then
      Some(DeviceDescriptorFields(
        DeviceFields(Word(b[2], b[3]), b[4], b[5], b[6], b[7],
                     Word(b[9], b[8]), Word(b[11], b[10]), Word(b[12], b[13])),
        b[14], b[15], b[16], b[17]))
    else None
  }

  /** The 16-bit value of a high and a low byte. */
  function Word(high: byte, low: byte): int { high * 0x100 + low }

  /** A 16-bit field survives its two bytes: `High` then `Low` gives it back. */
  lemma SplitWord(x: int)
    requires 0 <= x < 0x1_0000
    ensures Word(High(x), Low(x)) == x
  {
    assert High(x) == x / 0x100;
  }

  /** Round trip: reading the descriptor back gives every field, with the four
      16-bit fields reduced to their low 16 bits. */
  lemma {:induction false} DeviceDescriptorRoundTrip(d: DeviceDescriptorFields)
    requires DeviceDescriptorEncodable(d)
    ensures ParseDeviceDescriptor(DeviceDescriptor(d).value) == Some(d.(fields := d.fields.(
      usbSpecVersion := d.fields.usbSpecVersion % 0x1_0000,
      vendorId := d.fields.vendorId % 0x1_0000,
      productId := d.fields.productId % 0x1_0000,
      deviceRevision := d.fields.deviceRevision % 0x1_0000)))
  {
    var f := d.fields;
    LowBitsWord(f.usbSpecVersion);
    LowBitsWord(f.vendorId);
    LowBitsWord(f.productId);
    LowBitsWord(f.deviceRevision);
  }

  /** The two bytes written for a Python int are those of its low 16 bits. */
  lemma LowBitsWord(x: int)
    ensures Word(High(x), Low(x)) == x % 0x1_0000
  {
    var w := x % 0x1_0000;
    var q := x / 0x1_0000;
    assert x == q * 0x1_0000 + w;
    assert x == (q * 0x100 + w / 0x100) * 0x100 + w % 0x100;
    assert Low(x) == w % 0x100;
    assert x / 0x100 == q * 0x100 + w / 0x100;
    assert High(x) == w / 0x100;
    SplitWord(w);
  }

  /** With the defaults, bytes 2-3 are 0x00 0x02 (bcdUSB 2.00 read little-endian)
      and the IDs 0x610b and 0x4653 go out as 0b 61 and 53 46. */
  lemma DefaultDeviceDescriptor(manufacturer: byte, product: byte, serial: byte, count: byte)
    ensures DeviceDescriptor(DeviceDescriptorFields(DEFAULT_FIELDS, manufacturer, product, serial, count))
      == Some([18, 1, 0x00, 0x02, 0, 0, 0, 64, 0x0b, 0x61, 0x53, 0x46, 0, 0, manufacturer, product, serial, count])
  {
  }

  // ---- String descriptor zero: the supported languages ----

  /** Every language ID fits the two bytes `to_bytes(2, 'little')` gives it. */
  predicate LanguagesEncodable(languages: seq<int>)
  {
    forall i :: 0 <= i < |languages| ==> 0 <= languages[i] < 0x1_0000
  }

  /** The language IDs, two bytes each, low byte first. */
  function LanguageBytes(languages: seq<int>): (r: seq<byte>)
    ensures |r| == 2 * |languages|
  {
    if languages == [] then []
    else
      var last := languages[|languages| - 1];
      LanguageBytes(languages[..|languages| - 1]) + [Low(last), High(last)]
  }

  /** `handle_get_supported_languages_descriptor`: the header (total length,
      STRING tag) and then the language IDs; None where the source raises (more
      than 126 languages overflow the length byte, or a language ID does not fit
      in two bytes). */
  function LanguageDescriptor(languages: seq<int>): (r: Option<seq<byte>>)
    ensures r.Some? <==> |languages| <= 126 && LanguagesEncodable(languages)
    ensures r.Some? ==>
      |r.value| == 2 + 2 * |languages| && r.value[0] == |r.value| && r.value[1] == STRING_DESCRIPTOR
  {
    if 2 * |languages| + 2 < 0x100 && LanguagesEncodable(languages) then
      Some([2 * |languages| + 2, STRING_DESCRIPTOR] + LanguageBytes(languages))
    else None
  }

  lemma {:induction false} LanguageBytesAt(languages: seq<int>, i: nat)
    requires i < |languages|
    ensures LanguageBytes(languages)[2 * i] == Low(languages[i])
    ensures LanguageBytes(languages)[2 * i + 1] == High(languages[i])
    decreases |languages|
  {
    var n := |languages| - 1;
    if i < n {
      LanguageBytesAt(languages[..n], i);
      assert languages[..n][i] == languages[i];
    }
  }

  /** Past the header of string descriptor zero, language i sits at bytes 2+2i
      (low byte) and 3+2i (high byte). */
  lemma LanguageDescriptorLayout(languages: seq<int>)
    ensures LanguageDescriptor(languages).Some? ==>
      var b := LanguageDescriptor(languages).value;
      forall i :: 0 <= i < |languages| ==> b[2 + 2 * i] == Low(languages[i]) && b[3 + 2 * i] == High(languages[i])
  {
    if LanguageDescriptor(languages).Some? {
      var b := LanguageDescriptor(languages).value;
      forall i | 0 <= i < |languages|
        ensures b[2 + 2 * i] == Low(languages[i]) && b[3 + 2 * i] == High(languages[i])
      {
        LanguageBytesAt(languages, i);
      }
    }
  }

  /** A device that keeps the default language list, English (United States)
      alone, sends 04 03 09 04. */
  lemma DefaultLanguageDescriptor()
    ensures LanguageDescriptor([ENGLISH_US]) == Some([4, STRING_DESCRIPTOR, 0x09, 0x04])
  {
    var languages := [ENGLISH_US];
    assert languages[..0] == [];
    assert Low(ENGLISH_US) == 0x09 && High(ENGLISH_US) == 0x04;
    assert LanguageBytes(languages) == [0x09, 0x04];
    assert LanguagesEncodable(languages);
    var expected: seq<byte> := [4, STRING_DESCRIPTOR, 0x09, 0x04];
    assert LanguageDescriptor(languages).value == expected;
  }

  /** A host-side reading of string descriptor zero; the partner of `LanguageDescriptor`. */
  function ParseLanguageDescriptor(b: seq<byte>): Option<seq<int>>
  {
    if |b| >= 2 && b[0] == |b| && b[1] == STRING_DESCRIPTOR && |b| % 2 == 0 then
      Some(seq((|b| - 2) / 2, i requires 0 <= i < (|b| - 2) / 2 => Word(b[3 + 2 * i], b[2 + 2 * i])))
    else None
  }

  /** Round trip: the host reads back exactly the supported languages. */
  lemma LanguageDescriptorRoundTrip(languages: seq<int>)
    requires LanguageDescriptor(languages).Some?
    ensures ParseLanguageDescriptor(LanguageDescriptor(languages).value) == Some(languages)
  {
    LanguageDescriptorLayout(languages);
    var b := LanguageDescriptor(languages).value;
    var parsed := ParseLanguageDescriptor(b).value;
    assert |parsed| == |languages|;
    forall i | 0 <= i < |languages| ensures parsed[i] == languages[i] {
      SplitWord(languages[i]);
    }
    assert parsed == languages;
  }

  // ---- Configuration and string descriptors ----

  /** `get_configuration_descriptor`: descriptor index i names the configuration
      numbered i + 1; None where the dictionary lookup raises. */
  function ConfigurationDescriptor(configurations: map<int, Configuration>, index: int): (r: Option<seq<byte>>)
    ensures KeyedByNumber(configurations) ==>
      (r.Some? <==> exists n :: n in configurations && configurations[n].number == index + 1)
    ensures KeyedByNumber(configurations) ==>
      forall n :: n in configurations && configurations[n].number == index + 1 ==>
        r == Some(configurations[n].descriptor)
  {
    if index + 1 in configurations then Some(configurations[index + 1].descriptor) else None
  }

  // ---- Descriptor producers and GET_DESCRIPTOR ----

  /** A value in the device's descriptor table, or one a producer returns: bytes,
      Python's None, a callable of the descriptor index, or one of the device's
      own bound producers. A callable is given by its results: entry i for index
      i, `otherwise` for the indices past the list (the index is a byte, so this
      covers every callable of it). `Failing` is a callable that raises when
      called; a callable that raises only for some indices has it among its
      results. */
  datatype Producer =
    | Value(data: seq<byte>)
    | NoneValue
    | Generator(results: seq<Producer>, otherwise: Producer)
    | Failing
    | DeviceDescriptorMethod
    | ConfigurationDescriptorMethod
    | StringDescriptorMethod
  {
    predicate Callable() { !Value? && !NoneValue? }

    /** Python truthiness of a non-callable result: non-empty bytes. */
    predicate Truthy() { Value? && |data| > 0 }
  }

  /** The outcome of calling a producer: a result, or a raised exception. */
  datatype Call = Raises | Returns(value: Producer)

  /** What the device's bound producers read: its descriptor fields and string
      indices, its configurations, its languages and its string table. */
  datatype BoundDescriptors = BoundDescriptors(
    device: DeviceDescriptorFields,
    configurations: map<int, Configuration>,
    languages: seq<int>,
    strings: map<int, seq<byte>>)

  /** `get_string_descriptor`: index 0 is the language list, any other index goes
      to the string table (an index it does not hold gives None). */
  function StringDescriptor(b: BoundDescriptors, index: int): (r: Call)
    ensures r.Returns? ==> !r.value.Callable()
    ensures r.Raises? <==> index == 0 && LanguageDescriptor(b.languages).None?
    ensures index == 0 && r.Returns? ==> r.value == Value(LanguageDescriptor(b.languages).value)
    ensures index != 0 ==>
      (r.value.Truthy() <==> index in b.strings && |b.strings[index]| > 0) &&
      (r.value.Truthy() ==> r.value.data == b.strings[index])
  {
    if index == 0 then
      match LanguageDescriptor(b.languages)
      case None => Raises
      case Some(d) => Returns(Value(d))
    else if index in b.strings then Returns(Value(b.strings[index]))
    else Returns(NoneValue)
  }

  /** One call of a bound producer with the descriptor index. */
  function CallBound(b: BoundDescriptors, p: Producer, index: byte): (c: Call)
    requires p.DeviceDescriptorMethod? || p.ConfigurationDescriptorMethod? || p.StringDescriptorMethod?
    ensures c.Returns? ==> !c.value.Callable()
  {
    match p
    case DeviceDescriptorMethod =>
      (match DeviceDescriptor(b.device) case None => Raises case Some(d) => Returns(Value(d)))
    case ConfigurationDescriptorMethod =>
      (match ConfigurationDescriptor(b.configurations, index) case None => Raises case Some(d) => Returns(Value(d)))
    case StringDescriptorMethod => StringDescriptor(b, index)
  }

  /** The `while callable(response)` loop of the generic GET_DESCRIPTOR handler:
      calls the producer with the index until the result is not callable. */
  function Resolve(b: BoundDescriptors, p: Producer, index: byte): (c: Call)
    ensures c.Returns? ==> !c.value.Callable()
    decreases p
  {
    match p
    case Generator(results, otherwise) =>
      if index < |results| then Resolve(b, results[index], index) else Resolve(b, otherwise, index)
    case Value(_) => Returns(p)
    case NoneValue => Returns(p)
    case Failing => Raises
    case _ => CallBound(b, p, index)
  }

  /** The observable outcome of a GET_DESCRIPTOR request. */
  datatype DescriptorReply = Replied(data: seq<byte>) | Stalled | Raised

  /** The producer registered for a descriptor type; a missing type is None. */
  function Lookup(table: map<int, Producer>, descriptorType: int): Producer
  {
    if descriptorType in table then table[descriptorType] else NoneValue
  }

  /** `handle_generic_get_descriptor_request`: find the producer for the
      requested type, resolve it with the requested index, then reply with at
      most the requested length of a non-empty result, or stall. */
  function GetDescriptorReply(b: BoundDescriptors, table: map<int, Producer>, request: ControlRequest): (r: DescriptorReply)
    ensures r.Replied? ==> |r.data| <= request.length
    ensures request.ValueHigh() !in table ==> r == Stalled
  {
    match Resolve(b, Lookup(table, request.ValueHigh()), request.ValueLow())
    case Raises => Raised
    case Returns(v) =>
      if v.Truthy() then Replied(v.data[..Min(request.length, |v.data|)]) else Stalled
  }

  /** A reply is the first min(requested length, descriptor length) bytes of the
      resolved descriptor: it truncates and never pads. A stall means the type
      has no producer or its producers end in None or empty bytes. */
  lemma GetDescriptorReplyContract(b: BoundDescriptors, table: map<int, Producer>, request: ControlRequest)
    ensures GetDescriptorReply(b, table, request).Replied? <==>
      (var c := Resolve(b, Lookup(table, request.ValueHigh()), request.ValueLow()); c.Returns? && c.value.Truthy())
    ensures GetDescriptorReply(b, table, request).Replied? ==>
      var full := Resolve(b, Lookup(table, request.ValueHigh()), request.ValueLow()).value.data;
      var d := GetDescriptorReply(b, table, request).data;
      |d| == Min(request.length, |full|) && d <= full
    ensures GetDescriptorReply(b, table, request).Raised? <==>
      Resolve(b, Lookup(table, request.ValueHigh()), request.ValueLow()).Raises?
    ensures var c := Resolve(b, Lookup(table, request.ValueHigh()), request.ValueLow());
      c.Returns? && !c.value.Truthy() ==> GetDescriptorReply(b, table, request) == Stalled
  {
  }

  /** A user-supplied callable that raises for the requested index makes the
      request raise: no reply and no stall, as with the device's own producers. */
  lemma UserProducerRaises(b: BoundDescriptors, table: map<int, Producer>, request: ControlRequest,
                           results: seq<Producer>, otherwise: Producer)
    requires Lookup(table, request.ValueHigh()) == Generator(results, otherwise)
    requires if request.ValueLow() < |results| then results[request.ValueLow()] == Failing else otherwise == Failing
    ensures GetDescriptorReply(b, table, request) == Raised
  {
    var index := request.ValueLow();
    assert Resolve(b, Failing, index) == Raises;
    assert Resolve(b, Generator(results, otherwise), index) == Raises;
  }

  /** A producer built only from bytes, None and callables whose results are
      such producers: no bound producer and no `Failing` anywhere in it. */
  predicate Plain(p: Producer)
  {
    match p
    case Value(_) => true
    case NoneValue => true
    case Generator(results, otherwise) => (forall q :: q in results ==> Plain(q)) && Plain(otherwise)
    case _ => false
  }

  /** Resolving a plain producer never raises, whatever the index: a raise in
      GET_DESCRIPTOR needs a bound producer or a user callable that raises. */
  lemma {:induction false} PlainNeverRaises(b: BoundDescriptors, p: Producer, index: byte)
    requires Plain(p)
    ensures Resolve(b, p, index).Returns?
    decreases p
  {
    if p.Generator? {
      if index < |p.results| {
        assert p.results[index] in p.results;
        PlainNeverRaises(b, p.results[index], index);
      } else {
        PlainNeverRaises(b, p.otherwise, index);
      }
    }
  }

  /** A chain of callables resolves to what its last link returns for the index. */
  lemma {:induction false} ResolveChain(b: BoundDescriptors, p: Producer, index: byte, depth: nat, last: Producer)
    requires !last.Callable()
    requires p == Nest(depth, last)
    ensures Resolve(b, p, index) == Returns(last)
    decreases depth
  {
    if depth > 0 {
      ResolveChain(b, Nest(depth - 1, last), index, depth - 1, last);
    }
  }

  /** A producer that returns another producer `depth` times before returning `last`. */
  function Nest(depth: nat, last: Producer): Producer
  {
    if depth == 0 then last else Generator([], Nest(depth - 1, last))
  }

  /** The device's own table entries: DEVICE gives the device descriptor whatever
      the index; CONFIGURATION index i gives configuration i + 1's descriptor and
      raises when there is none; STRING index 0 gives the language list and any
      other index the string table's entry, stalling when there is none. */
  lemma BoundProducersReply(b: BoundDescriptors, table: map<int, Producer>, request: ControlRequest)
    requires Lookup(table, DEVICE_DESCRIPTOR) == DeviceDescriptorMethod
    requires Lookup(table, CONFIGURATION_DESCRIPTOR) == ConfigurationDescriptorMethod
    requires Lookup(table, STRING_DESCRIPTOR) == StringDescriptorMethod
    ensures request.ValueHigh() == DEVICE_DESCRIPTOR ==>
      GetDescriptorReply(b, table, request) ==
        (match DeviceDescriptor(b.device)
         case None => Raised
         case Some(d) => Replied(d[..Min(request.length, 18)]))
    ensures request.ValueHigh() == CONFIGURATION_DESCRIPTOR ==>
      GetDescriptorReply(b, table, request) ==
        (if request.ValueLow() + 1 !in b.configurations then Raised
         else var d := b.configurations[request.ValueLow() + 1].descriptor;
           if |d| == 0 then Stalled else Replied(d[..Min(request.length, |d|)]))
    ensures request.ValueHigh() == STRING_DESCRIPTOR && request.ValueLow() == 0 ==>
      GetDescriptorReply(b, table, request) ==
        (match LanguageDescriptor(b.languages)
         case None => Raised
         case Some(d) => Replied(d[..Min(request.length, |d|)]))
    ensures request.ValueHigh() == STRING_DESCRIPTOR && request.ValueLow() != 0 ==>
      GetDescriptorReply(b, table, request) ==
        (if request.ValueLow() in b.strings && |b.strings[request.ValueLow()]| > 0
         then var d := b.strings[request.ValueLow()]; Replied(d[..Min(request.length, |d|)])
         else Stalled)
  {
  }
}

=== FILE: device.dfy ===
/** The emulated USB device: its address and active configuration, the
    suggestions it collects for requests nobody handled, and every call it makes
    on its backend or on the current control request, recorded in order in
    `trace`. Hardware, logging and the run loop are outside the model. */
module Device {
  import opened UsbTypes
  import opened PacketFraming
  import opened Descriptors
  import opened StandardRequests

  /** The parts of an unhandled request that identify a missing handler. */
  datatype SuggestionKey = SuggestionKey(direction: Direction, requestType: RequestType, recipient: Recipient, number: byte)

  /** The most recent length and data seen for an unhandled request. */
  datatype SuggestionMetadata = SuggestionMetadata(length: uint16, data: seq<byte>)

  function SuggestionKeyOf(request: ControlRequest): SuggestionKey
  {
    SuggestionKey(request.direction, request.requestType, request.recipient, request.number)
  }

  /** What `handle_request` reports: handled, not handled, or an exception
      escaped from the handler. */
  datatype Dispatch = Handled | Unhandled | Faulted

  /** The device's own producers, registered over any user-supplied ones. */
  function BoundTable(user: map<int, Producer>): (r: map<int, Producer>)
    ensures r.Keys == user.Keys + {DEVICE_DESCRIPTOR as int, CONFIGURATION_DESCRIPTOR as int, STRING_DESCRIPTOR as int}
    ensures Lookup(r, DEVICE_DESCRIPTOR) == DeviceDescriptorMethod
    ensures Lookup(r, CONFIGURATION_DESCRIPTOR) == ConfigurationDescriptorMethod
    ensures Lookup(r, STRING_DESCRIPTOR) == StringDescriptorMethod
    ensures forall t :: t in user && t !in {DEVICE_DESCRIPTOR as int, CONFIGURATION_DESCRIPTOR as int, STRING_DESCRIPTOR as int} ==>
      r[t] == user[t]
  {
    user[DEVICE_DESCRIPTOR := DeviceDescriptorMethod]
        [CONFIGURATION_DESCRIPTOR := ConfigurationDescriptorMethod]
        [STRING_DESCRIPTOR := StringDescriptorMethod]
  }

  class UsbDevice {
    // Fixed at construction.
    const fields: DeviceFields
    const manufacturerString: string
    const productString: string
    const serialNumberString: string
    const supportedLanguages: seq<int>
    const configurations: map<int, Configuration>
    /** The string table's `get_index`. */
    const stringIndex: string -> int
    /** The string table's descriptors, by index. */
    const stringDescriptors: map<int, seq<byte>>
    const descriptors: map<int, Producer>
    /** The device-level request handlers, by request number. */
    const handlers: map<byte, StandardHandler>

    // Changed by the device's handlers.
    var address: int
    var configuration: Option<Configuration>
    var suggestedRequests: set<SuggestionKey>
    var suggestedRequestMetadata: map<SuggestionKey, SuggestionMetadata>
    /** Every backend call, reply, acknowledgement, stall and hand-off, in order. */
    var trace: seq<Event>

    /** Configurations and their endpoints are held under their own numbers, the
        active configuration is one of the device's own, the device's bound
        producers answer DEVICE, CONFIGURATION and STRING requests, and every
        suggestion has its metadata. */
    ghost predicate Valid()
      reads this
    {
      KeyedByNumber(configurations) &&
      (forall n :: n in configurations ==> EndpointsKeyed(configurations[n])) &&
      (configuration.Some? ==>
        configuration.value.number in configurations &&
        configurations[configuration.value.number] == configuration.value) &&
      Lookup(descriptors, DEVICE_DESCRIPTOR) == DeviceDescriptorMethod &&
      Lookup(descriptors, CONFIGURATION_DESCRIPTOR) == ConfigurationDescriptorMethod &&
      Lookup(descriptors, STRING_DESCRIPTOR) == StringDescriptorMethod &&
      suggestedRequests == suggestedRequestMetadata.Keys
    }

    /** A new device starts unaddressed and unconfigured, with no suggestions;
        `handlers` is `StandardHandlerTable()` for a `USBDevice` and empty for a
        `USBBaseDevice`. */
    constructor (fields: DeviceFields, manufacturerString: string, productString: string,
                 serialNumberString: string, supportedLanguages: seq<int>,
                 configurations: map<int, Configuration>, stringIndex: string -> int,
                 stringDescriptors: map<int, seq<byte>>, userDescriptors: map<int, Producer>,
                 handlers: map<byte, StandardHandler>)
      requires KeyedByNumber(configurations)
      requires forall n :: n in configurations ==> EndpointsKeyed(configurations[n])
      ensures Valid()
      ensures this.fields == fields && this.supportedLanguages == supportedLanguages
      ensures this.manufacturerString == manufacturerString && this.productString == productString
      ensures this.serialNumberString == serialNumberString
      ensures this.configurations == configurations && this.stringIndex == stringIndex
      ensures this.stringDescriptors == stringDescriptors && this.handlers == handlers
      ensures descriptors == BoundTable(userDescriptors)
      ensures address == 0 && configuration == None && trace == []
      ensures suggestedRequests == {} && suggestedRequestMetadata == map[]
    {
      this.fields := fields;
      this.manufacturerString := manufacturerString;
      this.productString := productString;
      this.serialNumberString := serialNumberString;
      this.supportedLanguages := supportedLanguages;
      this.configurations := configurations;
      this.stringIndex := stringIndex;
      this.stringDescriptors := stringDescriptors;
      this.descriptors := BoundTable(userDescriptors);
      this.handlers := handlers;
      address := 0;
      configuration := None;
      suggestedRequests := {};
      suggestedRequestMetadata := map[];
      trace := [];
    }

    /** The address and the active configuration. */
    function Control(): ControlState
      reads this
    {
      ControlState(address, configuration)
    }

    /** What the device's bound producers read: the device descriptor's fields
        with the string indices of the three strings and the configuration count,
        the configurations, the languages and the string table. */
    function Bound(): BoundDescriptors
    {
      BoundDescriptors(
        DeviceDescriptorFields(fields, stringIndex(manufacturerString), stringIndex(productString),
                               stringIndex(serialNumberString), |configurations|),
        configurations, supportedLanguages, stringDescriptors)
    }

    /** On a valid device the bound producers answer GET_DESCRIPTOR: DEVICE with
        this device's descriptor, whose last byte is the number of configurations;
        CONFIGURATION index i with the descriptor of the configuration numbered
        i + 1, raising exactly when there is none; STRING index 0 with the
        supported languages. */
    lemma ValidDescriptorRequests(request: ControlRequest)
      requires Valid()
      ensures request.ValueHigh() == DEVICE_DESCRIPTOR ==>
        GetDescriptorReply(Bound(), descriptors, request) ==
          (match DeviceDescriptor(Bound().device)
           case None => Raised
           case Some(d) => Replied(d[..Min(request.length, 18)]))
      ensures request.ValueHigh() == DEVICE_DESCRIPTOR && request.length >= 18 &&
              DeviceDescriptorEncodable(Bound().device) ==>
        var r := GetDescriptorReply(Bound(), descriptors, request);
        r.Replied? && |r.data| == 18 && r.data[17] == |configurations|
      ensures request.ValueHigh() == CONFIGURATION_DESCRIPTOR ==>
        (GetDescriptorReply(Bound(), descriptors, request).Raised? <==>
          !exists n :: n in configurations && configurations[n].number == request.ValueLow() + 1)
      ensures request.ValueHigh() == STRING_DESCRIPTOR && request.ValueLow() == 0 ==>
        GetDescriptorReply(Bound(), descriptors, request) ==
          (match LanguageDescriptor(supportedLanguages)
           case None => Raised
           case Some(d) => Replied(d[..Min(request.length, |d|)]))
    {
      BoundProducersReply(Bound(), descriptors, request);
      if request.ValueHigh() == CONFIGURATION_DESCRIPTOR {
        var index: int := request.ValueLow();
        if index + 1 in configurations {
          assert configurations[index + 1].number == index + 1;
        }
      }
    }

    // ---- I/O ----

    /** `stall`: stalls an endpoint, endpoint 0 in the OUT direction by default. */
    method Stall(endpointNumber: int := 0, direction: Direction := Out)
      modifies this`trace
      ensures trace == old(trace) + [StallEndpoint(endpointNumber, direction)]
    {
      trace := trace + [StallEndpoint(endpointNumber, direction)];
    }

    /** `get_endpoint`: the active configuration's endpoint with this number and
        direction; None when there is none or no configuration is active. */
    function GetEndpoint(endpointNumber: int, direction: Direction): (e: Option<Endpoint>)
      reads this
      ensures configuration.None? ==> e.None?
      ensures e.Some? <==> configuration.Some? && (endpointNumber, direction) in configuration.value.endpoints
      ensures e.Some? && EndpointsKeyed(configuration.value) ==>
        e.value.number == endpointNumber && e.value.direction == direction
    {
      match configuration
      case None => None
      case Some(c) =>
        if (endpointNumber, direction) in c.endpoints then Some(c.endpoints[(endpointNumber, direction)]) else None
    }

    /** `send`: endpoint 0 goes straight to the backend in one unchunked send;
        another endpoint is handed to the active configuration's IN endpoint of
        that number, and nothing is sent while unconfigured. A configured device
        without that endpoint raises (the lookup gives None). */
    method Send(endpointNumber: int, data: seq<byte>, blocking: bool := false) returns (raised: bool)
      modifies this`trace
      ensures endpointNumber == 0 ==> !raised && trace == old(trace) + [SendOnEndpoint(0, data, blocking)]
      ensures endpointNumber != 0 && configuration.None? ==> !raised && trace == old(trace)
      ensures endpointNumber != 0 && configuration.Some? ==>
        match GetEndpoint(endpointNumber, In)
        case None => raised && trace == old(trace)
        case Some(e) => !raised && trace == old(trace) + [EndpointSend(e, data, blocking)]
    {
      raised := false;
      if endpointNumber == 0 {
        trace := trace + [SendOnEndpoint(0, data, blocking)];
      } else if configuration.Some? {
        var endpoint := GetEndpoint(endpointNumber, In);
        if endpoint.None? {
          raised := true;
        } else {
          trace := trace + [EndpointSend(endpoint.value, data, blocking)];
        }
      }
    }

    /** `_send_in_packets`: one backend send per packet of `Packets(data, packetSize)`
        (see the contract of `PacketFraming.Packets`), all on the same endpoint with the same
        blocking flag. */
    method SendInPackets(endpointNumber: int, data: seq<byte>, packetSize: int, blocking: bool := false)
      requires packetSize > 0 || |data| == 0
      modifies this`trace
      ensures |data| == 0 ==> trace == old(trace) + [SendOnEndpoint(endpointNumber, [], blocking)]
      ensures packetSize > 0 ==> trace == old(trace) + Sends(endpointNumber, Packets(data, packetSize), blocking)
    {
      if |data| == 0 {
        trace := trace + [SendOnEndpoint(endpointNumber, data, blocking)];
        return;
      }
      ghost var start := trace;
      var rest := data;
      ghost var sent: seq<seq<byte>> := [];
      while |rest| > 0
        invariant Chunks(data, packetSize) == sent + Chunks(rest, packetSize)
        invariant trace == start + Sends(endpointNumber, sent, blocking)
        decreases |rest|
      {
        var n := Min(packetSize, |rest|);
        var packet := rest[..n];
        assert Chunks(data, packetSize) == (sent + [packet]) + Chunks(rest[n..], packetSize) by {
          ChunksStep(rest, packetSize);
        }
        SendsSnoc(endpointNumber, sent, packet, blocking);
        rest := rest[n..];
        sent := sent + [packet];
        trace := trace + [SendOnEndpoint(endpointNumber, packet, blocking)];
      }
      assert Packets(data, packetSize) == sent;
    }

    // ---- Backend events ----

    /** `handle_nak`: the host wants data from an IN endpoint. */
    method HandleNak(endpointNumber: int)
      modifies this`trace
      ensures match GetEndpoint(endpointNumber, In)
        case Some(e) => trace == old(trace) + [ConfigurationDataRequested(e)]
        case None => trace == old(trace) + [UnexpectedDataRequested(endpointNumber)]
    {
      var endpoint := GetEndpoint(endpointNumber, In);
      if endpoint.Some? {
        HandleDataRequested(endpoint.value);
      } else {
        HandleUnexpectedDataRequested(endpointNumber);
      }
    }

    /** `handle_buffer_available`: an IN endpoint's buffer has emptied; ignored
        for an endpoint the device does not have. */
    method HandleBufferAvailable(endpointNumber: int)
      modifies this`trace
      ensures match GetEndpoint(endpointNumber, In)
        case Some(e) => trace == old(trace) + [ConfigurationBufferEmpty(e)]
        case None => trace == old(trace)
    {
      var endpoint := GetEndpoint(endpointNumber, In);
      if endpoint.Some? {
        HandleBufferEmpty(endpoint.value);
      }
    }

    /** `handle_data_available`: data arrived on an OUT endpoint. */
    method HandleDataAvailable(endpointNumber: int, data: seq<byte>)
      modifies this`trace
      ensures match GetEndpoint(endpointNumber, Out)
        case Some(e) => trace == old(trace) + [ConfigurationDataReceived(e, data)]
        case None => trace == old(trace) + [UnexpectedDataReceived(endpointNumber, data)]
    {
      var endpoint := GetEndpoint(endpointNumber, Out);
      if endpoint.Some? {
        HandleDataReceived(endpoint.value, data);
      } else {
        HandleUnexpectedDataReceived(endpointNumber, data);
      }
    }

    /** `handle_bus_reset`: back to address 0 with no configuration, and the
        backend resets once. */
    method HandleBusReset()
      requires Valid()
      modifies this`address, this`configuration, this`trace
      ensures Valid()
      ensures configuration == None && address == 0
      ensures trace == old(trace) + [BackendReset]
    {
      configuration := None;
      address := 0;
      trace := trace + [BackendReset];
    }

    /** `handle_request`: the device's own handler claims the request first, then
        its subordinates (whose answer is the `subordinatesHandled` input). A
        request nobody claims is recorded as a suggestion and answered with
        exactly one stall of endpoint 0, direction OUT. */
    method HandleRequest(request: ControlRequest, subordinatesHandled: bool) returns (result: Dispatch)
      requires Valid()
      modifies this`address, this`configuration, this`trace, this`suggestedRequests, this`suggestedRequestMetadata
      ensures Valid()
      ensures DeviceHandlerFor(handlers, request).Some? ==>
        var step := StandardStep(DeviceHandlerFor(handlers, request).value, request, old(Control()),
                                 configurations, GetDescriptorReply(Bound(), descriptors, request));
        Control() == step.after && trace == old(trace) + step.events &&
        result == (if step.raised then Faulted else Handled) &&
        suggestedRequests == old(suggestedRequests) && suggestedRequestMetadata == old(suggestedRequestMetadata)
      ensures DeviceHandlerFor(handlers, request).None? && subordinatesHandled ==>
        result == Handled && Control() == old(Control()) && trace == old(trace) &&
        suggestedRequests == old(suggestedRequests) && suggestedRequestMetadata == old(suggestedRequestMetadata)
      ensures DeviceHandlerFor(handlers, request).None? && !subordinatesHandled ==>
        result == Unhandled && Control() == old(Control()) &&
        trace == old(trace) + [StallEndpoint(0, Out)] &&
        suggestedRequests == old(suggestedRequests) + {SuggestionKeyOf(request)} &&
        suggestedRequestMetadata ==
          old(suggestedRequestMetadata)[SuggestionKeyOf(request) := SuggestionMetadata(request.length, request.data)]
    {
      var handler := DeviceHandlerFor(handlers, request);
      if handler.Some? {
        var raised := HandleStandardRequest(handler.value, request);
        result := if raised then Faulted else Handled;
      } else if subordinatesHandled {
        result := Handled;
      } else {
        AddRequestSuggestion(request);
        Stall();
        result := Unhandled;
      }
    }

    /** `handle_data_received`: data for an endpoint goes to the active
        configuration; while unconfigured it takes the unexpected-data path. */
    method HandleDataReceived(endpoint: Endpoint, data: seq<byte>)
      modifies this`trace
      ensures configuration.Some? ==> trace == old(trace) + [ConfigurationDataReceived(endpoint, data)]
      ensures configuration.None? ==> trace == old(trace) + [UnexpectedDataReceived(endpoint.number, data)]
    {
      if configuration.Some? {
        trace := trace + [ConfigurationDataReceived(endpoint, data)];
      } else {
        HandleUnexpectedDataReceived(endpoint.number, data);
      }
    }

    /** `handle_unexpected_data_received`: the path for data the device cannot place. */
    method HandleUnexpectedDataReceived(endpointNumber: int, data: seq<byte>)
      modifies this`trace
      ensures trace == old(trace) + [UnexpectedDataReceived(endpointNumber, data)]
    {
      trace := trace + [UnexpectedDataReceived(endpointNumber, data)];
    }

    /** `handle_data_requested`: a request for data goes to the active
        configuration; while unconfigured it takes the unexpected path. */
    method HandleDataRequested(endpoint: Endpoint)
      modifies this`trace
      ensures configuration.Some? ==> trace == old(trace) + [ConfigurationDataRequested(endpoint)]
      ensures configuration.None? ==> trace == old(trace) + [UnexpectedDataRequested(endpoint.number)]
    {
      if configuration.Some? {
        trace := trace + [ConfigurationDataRequested(endpoint)];
      } else {
        HandleUnexpectedDataRequested(endpoint.number);
      }
    }

    /** `handle_unexpected_data_requested`: the path for requests the device cannot place. */
    method HandleUnexpectedDataRequested(endpointNumber: int)
      modifies this`trace
      ensures trace == old(trace) + [UnexpectedDataRequested(endpointNumber)]
    {
      trace := trace + [UnexpectedDataRequested(endpointNumber)];
    }

    /** `handle_buffer_empty`: passed to the active configuration, dropped while unconfigured. */
    method HandleBufferEmpty(endpoint: Endpoint)
      modifies this`trace
      ensures configuration.Some? ==> trace == old(trace) + [ConfigurationBufferEmpty(endpoint)]
      ensures configuration.None? ==> trace == old(trace)
    {
      if configuration.Some? {
        trace := trace + [ConfigurationBufferEmpty(endpoint)];
      }
    }

    // ---- Suggestions ----

    /** `_add_request_suggestion`: remembers the request's identity and
        overwrites that identity's metadata with this request's length and data. */
    method AddRequestSuggestion(request: ControlRequest)
      requires Valid()
      modifies this`suggestedRequests, this`suggestedRequestMetadata
      ensures Valid()
      ensures suggestedRequests == old(suggestedRequests) + {SuggestionKeyOf(request)}
      ensures suggestedRequestMetadata ==
        old(suggestedRequestMetadata)[SuggestionKeyOf(request) := SuggestionMetadata(request.length, request.data)]
    {
      var key := SuggestionKeyOf(request);
      suggestedRequests := suggestedRequests + {key};
      suggestedRequestMetadata := suggestedRequestMetadata[key := SuggestionMetadata(request.length, request.data)];
    }

    // ---- Descriptors ----

    /** `set_address`: records the new address and passes it to the backend. */
    method SetAddress(address: int, defer: bool := false)
      modifies this`address, this`trace
      ensures this.address == address
      ensures trace == old(trace) + [Event.SetAddress(address, defer)]
    {
      this.address := address;
      trace := trace + [Event.SetAddress(address, defer)];
    }

    /** `handle_get_supported_languages_descriptor`, built byte by byte as the
        source extends its byte array. */
    method HandleGetSupportedLanguagesDescriptor() returns (r: Option<seq<byte>>)
      ensures r == LanguageDescriptor(supportedLanguages)
    {
      var totalLength := |supportedLanguages| * 2 + 2;
      if totalLength >= 0x100 {
        return None;
      }
      var packet: seq<byte> := [totalLength, STRING_DESCRIPTOR];
      for i := 0 to |supportedLanguages|
        invariant packet == [totalLength, STRING_DESCRIPTOR] + LanguageBytes(supportedLanguages[..i])
        invariant LanguagesEncodable(supportedLanguages[..i])
      {
        var language := supportedLanguages[i];
        if !(0 <= language < 0x1_0000) {
          assert !LanguagesEncodable(supportedLanguages);
          return None;
        }
        assert supportedLanguages[..i + 1][..i] == supportedLanguages[..i];
        packet := packet + [Low(language), High(language)];
      }
      assert supportedLanguages[..|supportedLanguages|] == supportedLanguages;
      return Some(packet);
    }

    /** `handle_generic_get_descriptor_request`: calls the producer for the
        requested type until the result is not callable, then replies with at
        most the requested length of a non-empty result and stalls otherwise. */
    method HandleGenericGetDescriptorRequest(request: ControlRequest) returns (raised: bool)
      modifies this`trace
      ensures var reply := GetDescriptorReply(Bound(), descriptors, request);
        raised == reply.Raised? && trace == old(trace) + DescriptorEvents(reply)
    {
      var index := request.ValueLow();
      var response := Lookup(descriptors, request.ValueHigh());
      while response.Callable()
        invariant Resolve(Bound(), response, index) == Resolve(Bound(), Lookup(descriptors, request.ValueHigh()), index)
        decreases if response.Callable() then 1 else 0, response
      {
        if response.Generator? {
          response := if index < |response.results| then response.results[index] else response.otherwise;
        } else if response.Failing? {
          return true;
        } else {
          var call := CallBound(Bound(), response, index);
          if call.Raises? {
            return true;
          }
          response := call.value;
        }
      }
      if response.Truthy() {
        var responseLength := Min(request.length, |response.data|);
        trace := trace + [Reply(response.data[..responseLength])];
      } else {
        trace := trace + [RequestStall];
      }
      return false;
    }

    // ---- The standard requests of a USBDevice ----

    /** GET_STATUS: replies self-powered with remote wakeup, [3, 0]. */
    method HandleGetStatusRequest(request: ControlRequest)
      modifies this`trace
      ensures trace == old(trace) + [Reply([3, 0])]
    {
      trace := trace + [Reply([3, 0])];
    }

    /** CLEAR_FEATURE: acknowledged. */
    method HandleClearFeatureRequest(request: ControlRequest)
      modifies this`trace
      ensures trace == old(trace) + [Acknowledge(false)]
    {
      trace := trace + [Acknowledge(false)];
    }

    /** SET_FEATURE: stalled; no feature is supported. */
    method HandleSetFeatureRequest(request: ControlRequest)
      modifies this`trace
      ensures trace == old(trace) + [RequestStall]
    {
      trace := trace + [RequestStall];
    }

    /** SET_ADDRESS: acknowledges (blocking) first, then takes the new address
        and passes it to the backend undeferred. */
    method HandleSetAddressRequest(request: ControlRequest)
      modifies this`address, this`trace
      ensures address == request.value
      ensures trace == old(trace) + [Acknowledge(true), Event.SetAddress(request.value, false)]
    {
      trace := trace + [Acknowledge(true)];
      SetAddress(request.value);
    }

    /** GET_DESCRIPTOR: the generic handler. */
    method HandleGetDescriptorRequest(request: ControlRequest) returns (raised: bool)
      modifies this`trace
      ensures var reply := GetDescriptorReply(Bound(), descriptors, request);
        raised == reply.Raised? && trace == old(trace) + DescriptorEvents(reply)
    {
      raised := HandleGenericGetDescriptorRequest(request);
    }

    /** SET_DESCRIPTOR: stalled. */
    method HandleSetDescriptorRequest(request: ControlRequest)
      modifies this`trace
      ensures trace == old(trace) + [RequestStall]
    {
      trace := trace + [RequestStall];
    }

    /** GET_CONFIGURATION: replies 0 while unconfigured and the active
        configuration's number otherwise (raising when that number is no byte). */
    method HandleGetConfigurationRequest(request: ControlRequest) returns (raised: bool)
      modifies this`trace
      ensures configuration.None? ==> !raised && trace == old(trace) + [Reply([0])]
      ensures configuration.Some? && IsByte(configuration.value.number) ==>
        !raised && trace == old(trace) + [Reply([configuration.value.number])]
      ensures configuration.Some? && !IsByte(configuration.value.number) ==> raised && trace == old(trace)
    {
      raised := false;
      if configuration.None? {
        trace := trace + [Reply([0])];
      } else {
        var configIndex := configuration.value.number;
        if !IsByte(configIndex) {
          return true;
        }
        trace := trace + [Reply([configIndex])];
      }
    }

    /** SET_CONFIGURATION: 0 deselects and acknowledges, a known number selects
        that configuration and acknowledges, an unknown one stalls and keeps the
        selection; the backend then hears of the selection. */
    method HandleSetConfigurationRequest(request: ControlRequest)
      requires Valid()
      modifies this`configuration, this`trace
      ensures Valid()
      ensures request.value == 0 ==>
        configuration == None && trace == old(trace) + [Acknowledge(false), Configured(None)]
      ensures request.value != 0 && request.value in configurations ==>
        configuration == Some(configurations[request.value]) &&
        trace == old(trace) + [Acknowledge(false), Configured(configuration)]
      ensures request.value != 0 && request.value !in configurations ==>
        configuration == old(configuration) &&
        trace == old(trace) + [RequestStall, Configured(old(configuration))]
    {
      if request.value == 0 {
        configuration := None;
        trace := trace + [Acknowledge(false)];
      } else if request.value in configurations {
        configuration := Some(configurations[request.value]);
        trace := trace + [Acknowledge(false)];
      } else {
        trace := trace + [RequestStall];
      }
      trace := trace + [Configured(configuration)];
    }

    /** GET_INTERFACE: replies 0 when configured and the interface exists, stalls otherwise. */
    method HandleGetInterfaceRequest(request: ControlRequest)
      modifies this`trace
      ensures configuration.Some? && request.IndexLow() in configuration.value.interfaces ==>
        trace == old(trace) + [Reply([0])]
      ensures !(configuration.Some? && request.IndexLow() in configuration.value.interfaces) ==>
        trace == old(trace) + [RequestStall]
    {
      if configuration.Some? && request.IndexLow() in configuration.value.interfaces {
        trace := trace + [Reply([0])];
      } else {
        trace := trace + [RequestStall];
      }
    }

    /** SET_INTERFACE: acknowledges interface 0 and stalls every other. */
    method HandleSetInterfaceRequest(request: ControlRequest)
      modifies this`trace
      ensures request.IndexLow() == 0 ==> trace == old(trace) + [Acknowledge(false)]
      ensures request.IndexLow() != 0 ==> trace == old(trace) + [RequestStall]
    {
      if request.IndexLow() == 0 {
        trace := trace + [Acknowledge(false)];
      } else {
        trace := trace + [RequestStall];
      }
    }

    /** SYNCH_FRAME: acknowledged. */
    method HandleSynchFrameRequest(request: ControlRequest)
      modifies this`trace
      ensures trace == old(trace) + [Acknowledge(false)]
    {
      trace := trace + [Acknowledge(false)];
    }

    /** Runs the device-level handler that claimed a request. */
    method HandleStandardRequest(h: StandardHandler, request: ControlRequest) returns (raised: bool)
      requires Valid()
      modifies this`address, this`configuration, this`trace
      ensures Valid()
      ensures var step := StandardStep(h, request, old(Control()), configurations,
                                       GetDescriptorReply(Bound(), descriptors, request));
        Control() == step.after && trace == old(trace) + step.events && raised == step.raised
    {
      ghost var step := StandardStep(h, request, Control(), configurations,
                                     GetDescriptorReply(Bound(), descriptors, request));
      raised := false;
      match h {
        case GetStatusHandler => HandleGetStatusRequest(request);
        case ClearFeatureHandler => HandleClearFeatureRequest(request);
        case SetFeatureHandler => HandleSetFeatureRequest(request);
        case SetAddressHandler => HandleSetAddressRequest(request);
        case GetDescriptorHandler => raised := HandleGetDescriptorRequest(request);
        case SetDescriptorHandler => HandleSetDescriptorRequest(request);
        case GetConfigurationHandler => raised := HandleGetConfigurationRequest(request);
        case SetConfigurationHandler => HandleSetConfigurationRequest(request);
        case GetInterfaceHandler => HandleGetInterfaceRequest(request);
        case SetInterfaceHandler => HandleSetInterfaceRequest(request);
        case SynchFrameHandler => HandleSynchFrameRequest(request);
      }
      assert Control() == step.after;
    }
  }
}

=== FILE: packets.dfy ===
/** IN-packet framing of a non-control transfer: the payload is cut into packets
    no longer than the endpoint's maximum packet size, and an empty payload still
    goes out as one zero-length packet. */
module PacketFraming {
  import opened UsbTypes

  /** The packets a non-empty payload is cut into, front to back. */
  function Chunks(data: seq<byte>, size: nat): seq<seq<byte>>
    requires size > 0
    decreases |data|
  {
    if |data| == 0 then []
    else if |data| <= size then [data]
    else [data[..size]] + Chunks(data[size..], size)
  }

  /** What `_send_in_packets` submits. An empty payload gives exactly one
      zero-length packet; otherwise there are ceil(L / P) packets, each non-empty
      and at most P bytes, all but the last exactly P bytes, and in order they
      make up the payload. */
  function Packets(data: seq<byte>, size: nat): (r: seq<seq<byte>>)
    requires size > 0
    ensures |data| == 0 ==> r == [[]]
    ensures |data| > 0 ==> |r| == CeilDiv(|data|, size)
    ensures |data| > 0 ==> forall i :: 0 <= i < |r| ==> 0 < |r[i]| <= size
    ensures forall i :: 0 <= i < |r| - 1 ==> |r[i]| == size
    ensures Concat(r) == data
  {
    if |data| == 0 then
      assert Concat([[]]) == [] + Concat([]);
      [[]]
    else
      ChunksShape(data, size);
      ChunksConcat(data, size);
      Chunks(data, size)
  }

  /** The packets laid end to end. */
  function Concat(packets: seq<seq<byte>>): seq<byte>
  {
    if packets == [] then [] else packets[0] + Concat(packets[1..])
  }

  /** The number of packets of at most `size` bytes a payload of `n` bytes needs:
      ceil(n / size), counted one full packet at a time (see CeilDivBounds). */
  function CeilDiv(n: nat, size: nat): nat
    requires size > 0
    decreases n
  {
    if n == 0 then 0 else 1 + CeilDiv(n - Min(n, size), size)
  }

  /** `CeilDiv` is the ceiling of the quotient: the smallest k with n <= k * size. */
  lemma {:induction false} CeilDivBounds(n: nat, size: nat)
    requires size > 0
    ensures n <= CeilDiv(n, size) * size
    ensures n > 0 ==> (CeilDiv(n, size) - 1) * size < n
    decreases n
  {
    if n > 0 {
      var k := CeilDiv(n - Min(n, size), size);
      CeilDivBounds(n - Min(n, size), size);
      assert (k + 1) * size == k * size + size;
      if n > size {
        assert k > 0;
        assert (k - 1) * size + size == k * size;
      } else {
        assert k == 0;
      }
    }
  }

  /** One backend send per packet, all on the same endpoint with the same blocking flag. */
  function Sends(endpointNumber: int, packets: seq<seq<byte>>, blocking: bool): (r: seq<Event>)
    ensures |r| == |packets|
  {
    if packets == [] then []
    else [SendOnEndpoint(endpointNumber, packets[0], blocking)] + Sends(endpointNumber, packets[1..], blocking)
  }

  lemma {:induction false} SendsAppend(endpointNumber: int, a: seq<seq<byte>>, b: seq<seq<byte>>, blocking: bool)
    ensures Sends(endpointNumber, a + b, blocking) == Sends(endpointNumber, a, blocking) + Sends(endpointNumber, b, blocking)
    decreases |a|
  {
    if a == [] {
      assert a + b == b;
    } else {
      assert (a + b)[1..] == a[1..] + b;
      SendsAppend(endpointNumber, a[1..], b, blocking);
    }
  }

  /** Sending one more packet appends one send. */
  lemma SendsSnoc(endpointNumber: int, sent: seq<seq<byte>>, packet: seq<byte>, blocking: bool)
    ensures Sends(endpointNumber, sent + [packet], blocking) ==
      Sends(endpointNumber, sent, blocking) + [SendOnEndpoint(endpointNumber, packet, blocking)]
  {
    SendsAppend(endpointNumber, sent, [packet], blocking);
  }

  /** Every send of `Sends` is on the given endpoint, carries the i-th packet,
      and uses the given blocking flag. */
  lemma {:induction false} SendsAt(endpointNumber: int, packets: seq<seq<byte>>, blocking: bool, i: nat)
    requires i < |packets|
    ensures Sends(endpointNumber, packets, blocking)[i] == SendOnEndpoint(endpointNumber, packets[i], blocking)
    decreases |packets|
  {
    if i > 0 {
      SendsAt(endpointNumber, packets[1..], blocking, i - 1);
    }
  }

  /** One turn of the chunking loop: the first packet is the first
      min(size, |data|) bytes, and the rest are the chunks of what remains. */
  lemma ChunksStep(data: seq<byte>, size: nat)
    requires size > 0 && |data| > 0
    ensures Chunks(data, size) == [data[..Min(size, |data|)]] + Chunks(data[Min(size, |data|)..], size)
  {
    if |data| <= size {
      assert data[..|data|] == data;
    }
  }

  /** Laid end to end, the chunks are the payload again. */
  lemma {:induction false} ChunksConcat(data: seq<byte>, size: nat)
    requires size > 0
    ensures Concat(Chunks(data, size)) == data
    decreases |data|
  {
    if |data| == 0 {
    } else if |data| <= size {
      assert Concat([data]) == data + Concat([]);
    } else {
      var rest := Chunks(data[size..], size);
      ChunksConcat(data[size..], size);
      assert ([data[..size]] + rest)[1..] == rest;
      assert data[..size] + data[size..] == data;
    }
  }

  /** Every chunk is non-empty and at most `size` bytes, every chunk but the last
      is exactly `size` bytes, and there are ceil(|data| / size) of them. */
  lemma {:induction false} ChunksShape(data: seq<byte>, size: nat)
    requires size > 0
    ensures |Chunks(data, size)| == CeilDiv(|data|, size)
    ensures forall i :: 0 <= i < |Chunks(data, size)| ==> 0 < |Chunks(data, size)[i]| <= size
    ensures forall i :: 0 <= i < |Chunks(data, size)| - 1 ==> |Chunks(data, size)[i]| == size
    decreases |data|
  {
    if |data| == 0 {
    } else if |data| <= size {
      assert CeilDiv(|data|, size) == 1 + CeilDiv(0, size);
    } else {
      ChunksShape(data[size..], size);
      var rest := Chunks(data[size..], size);
      assert Chunks(data, size) == [data[..size]] + rest;
    }
  }
}

=== FILE: standard_requests.dfy ===
/** The standard requests a `USBDevice` answers itself (section 9.4 of the USB 2.0
    specification): the device-level handler table, keyed by request number, and
    the effect of each handler on the device's address, its active configuration
    and the events it emits. */
module StandardRequests {
  import opened UsbTypes
  import opened Descriptors

  datatype StandardHandler =
    | GetStatusHandler
    | ClearFeatureHandler
    | SetFeatureHandler
    | SetAddressHandler
    | GetDescriptorHandler
    | SetDescriptorHandler
    | GetConfigurationHandler
    | SetConfigurationHandler
    | GetInterfaceHandler
    | SetInterfaceHandler
    | SynchFrameHandler
  {
    /** The request number the handler's decorator declares. */
    function Number(): byte
    {
      match this
      case GetStatusHandler => GET_STATUS
      case ClearFeatureHandler => CLEAR_FEATURE
      case SetFeatureHandler => SET_FEATURE
      case SetAddressHandler => SET_ADDRESS
      case GetDescriptorHandler => GET_DESCRIPTOR
      case SetDescriptorHandler => SET_DESCRIPTOR
      case GetConfigurationHandler => GET_CONFIGURATION
      case SetConfigurationHandler => SET_CONFIGURATION
      case GetInterfaceHandler => GET_INTERFACE
      case SetInterfaceHandler => SET_INTERFACE
      case SynchFrameHandler => SYNCH_FRAME
    }
  }

  /** The handlers `USBDevice` declares: every one a STANDARD request aimed at the
      device, keyed by its request number. `USBBaseDevice` declares none. */
  function StandardHandlerTable(): map<byte, StandardHandler>
  {
    map[GET_STATUS := GetStatusHandler,
        CLEAR_FEATURE := ClearFeatureHandler,
        SET_FEATURE := SetFeatureHandler,
        SET_ADDRESS := SetAddressHandler,
        GET_DESCRIPTOR := GetDescriptorHandler,
        SET_DESCRIPTOR := SetDescriptorHandler,
        GET_CONFIGURATION := GetConfigurationHandler,
        SET_CONFIGURATION := SetConfigurationHandler,
        GET_INTERFACE := GetInterfaceHandler,
        SET_INTERFACE := SetInterfaceHandler,
        SYNCH_FRAME := SynchFrameHandler]
  }

  /** The device-level handler that claims a request, if any: the request must be
      of the STANDARD type, aimed at the device, and its number must be in the table. */
  function DeviceHandlerFor(table: map<byte, StandardHandler>, request: ControlRequest): (r: Option<StandardHandler>)
    ensures r.Some? <==> request.requestType == Standard && request.recipient == ToDevice && request.number in table
    ensures r.Some? ==> r.value == table[request.number]
    ensures table == StandardHandlerTable() && r.Some? ==> r.value.Number() == request.number
  {
    if request.requestType == Standard && request.recipient == ToDevice && request.number in table
    then
      StandardHandlerNumbers();
      Some(table[request.number])
    else None
  }

  /** Every handler of `USBDevice` sits in the table under the request number its
      decorator declares, and each handler appears once. */
  lemma StandardHandlerNumbers()
    ensures forall n :: n in StandardHandlerTable() ==> StandardHandlerTable()[n].Number() == n
    ensures forall h: StandardHandler :: h.Number() in StandardHandlerTable() && StandardHandlerTable()[h.Number()] == h
  {
  }

  /** `USBDevice` claims exactly the eleven standard requests of section 9.4 aimed
      at the device; request numbers 2 and 4 and everything past SYNCH_FRAME fall
      through to the subordinates. */
  lemma StandardTableClaims(request: ControlRequest)
    ensures DeviceHandlerFor(StandardHandlerTable(), request).Some? <==>
      request.requestType == Standard && request.recipient == ToDevice &&
      request.number in {0, 1, 3, 5, 6, 7, 8, 9, 10, 11, 12}
    ensures DeviceHandlerFor(map[], request) == None
  {
  }

  /** The part of the device's state the standard handlers touch. */
  datatype ControlState = ControlState(address: int, configuration: Option<Configuration>)

  /** The effect of one handler: the new state, the events emitted in order, and
      whether the handler raised before finishing. */
  datatype Step = Step(after: ControlState, events: seq<Event>, raised: bool)

  /** The events that answer a GET_DESCRIPTOR request. */
  function DescriptorEvents(reply: DescriptorReply): seq<Event>
  {
    match reply
    case Replied(d) => [Reply(d)]
    case Stalled => [RequestStall]
    case Raised => []
  }

  /** What SET_CONFIGURATION leaves selected: nothing for 0, the configuration held
      under a known number, and the previous selection for an unknown one. */
  function SelectedConfiguration(configurations: map<int, Configuration>, before: Option<Configuration>, value: int): Option<Configuration>
  {
    if value == 0 then None
    else if value in configurations then Some(configurations[value])
    else before
  }

  /** The effect of each of `USBDevice`'s standard handlers, given the outcome of
      the generic GET_DESCRIPTOR handler for this request. Only SET_ADDRESS changes
      the address, only SET_CONFIGURATION the configuration, and only GET_DESCRIPTOR
      and GET_CONFIGURATION can raise, emitting nothing when they do. */
  function StandardStep(h: StandardHandler, request: ControlRequest, before: ControlState,
                        configurations: map<int, Configuration>, descriptor: DescriptorReply): (s: Step)
    ensures h != SetAddressHandler ==> s.after.address == before.address
    ensures h != SetConfigurationHandler ==> s.after.configuration == before.configuration
    ensures s.raised ==> s.events == [] && h in {GetDescriptorHandler, GetConfigurationHandler}
  {
    match h
    case GetStatusHandler => Step(before, [Reply([3, 0])], false)
    case ClearFeatureHandler => Step(before, [Acknowledge(false)], false)
    case SetFeatureHandler => Step(before, [RequestStall], false)
    case SetAddressHandler =>
      Step(before.(address := request.value), [Acknowledge(true), SetAddress(request.value, false)], false)
    case GetDescriptorHandler => Step(before, DescriptorEvents(descriptor), descriptor.Raised?)
    case SetDescriptorHandler => Step(before, [RequestStall], false)
    case GetConfigurationHandler =>
      (match before.configuration
       case None => Step(before, [Reply([0])], false)
       case Some(c) =>
         if IsByte(c.number) then Step(before, [Reply([c.number])], false)
         else Step(before, [], true))
    case SetConfigurationHandler =>
      var selected := SelectedConfiguration(configurations, before.configuration, request.value);
      var answer := if request.value == 0 || request.value in configurations then Acknowledge(false) else RequestStall;
      Step(before.(configuration := selected), [answer, Configured(selected)], false)
    case GetInterfaceHandler =>
      if before.configuration.Some? && request.IndexLow() in before.configuration.value.interfaces
      then Step(before, [Reply([0])], false)
      else Step(before, [RequestStall], false)
    case SetInterfaceHandler =>
      Step(before, [if request.IndexLow() == 0 then Acknowledge(false) else RequestStall], false)
    case SynchFrameHandler => Step(before, [Acknowledge(false)], false)
  }

  /** Every standard handler that finishes ends the transfer exactly once (a
      reply, an acknowledgement or a stall), and one that raises emits nothing. */
  lemma {:induction false} OneTerminalAction(h: StandardHandler, request: ControlRequest, before: ControlState,
                                              configurations: map<int, Configuration>, descriptor: DescriptorReply)
    ensures var s := StandardStep(h, request, before, configurations, descriptor);
      (s.raised ==> s.events == []) && (!s.raised ==> TerminalCount(s.events) == 1)
  {
    var s := StandardStep(h, request, before, configurations, descriptor);
    if !s.raised {
      if |s.events| == 2 {
        assert TerminalCount(s.events) == (if s.events[0].Terminal() then 1 else 0) + TerminalCount(s.events[1..]);
        assert s.events[1..][1..] == [];
        assert TerminalCount(s.events[1..]) == (if s.events[1].Terminal() then 1 else 0) + TerminalCount(s.events[1..][1..]);
      } else {
        assert TerminalCount(s.events) == (if s.events[0].Terminal() then 1 else 0) + TerminalCount(s.events[1..]);
      }
    }
  }

  /** SET_ADDRESS acknowledges (blocking) before it changes the address, and then
      tells the backend the new address without deferring it. */
  lemma SetAddressAcknowledgesFirst(request: ControlRequest, before: ControlState,
                                    configurations: map<int, Configuration>, descriptor: DescriptorReply)
    ensures var s := StandardStep(SetAddressHandler, request, before, configurations, descriptor);
      s.after == ControlState(request.value, before.configuration) &&
      |s.events| == 2 && s.events[0] == Acknowledge(true) &&
      s.events[1] == SetAddress(request.value, false)
  {
  }

  /** SET_CONFIGURATION: 0 deselects and acknowledges; a known number selects that
      configuration and acknowledges; an unknown number stalls and keeps the
      previous selection. The backend then always hears of the selection. */
  lemma SetConfigurationContract(request: ControlRequest, before: ControlState,
                                 configurations: map<int, Configuration>, descriptor: DescriptorReply)
    ensures var s := StandardStep(SetConfigurationHandler, request, before, configurations, descriptor);
      var c := s.after.configuration;
      s.after.address == before.address &&
      |s.events| == 2 && s.events[1] == Configured(c) &&
      (request.value == 0 ==> c == None && s.events[0] == Acknowledge(false)) &&
      (request.value != 0 && request.value in configurations ==>
        c == Some(configurations[request.value]) && s.events[0] == Acknowledge(false)) &&
      (request.value !in configurations && request.value != 0 ==>
        c == before.configuration && s.events[0] == RequestStall)
  {
  }

  /** Selecting the same configuration again has the same effect again. */
  lemma SetConfigurationIdempotent(request: ControlRequest, before: ControlState,
                                   configurations: map<int, Configuration>, descriptor: DescriptorReply)
    ensures var once := StandardStep(SetConfigurationHandler, request, before, configurations, descriptor);
      var twice := StandardStep(SetConfigurationHandler, request, once.after, configurations, descriptor);
      twice == once
  {
  }

  /** After SET_CONFIGURATION(n), GET_CONFIGURATION answers n: 0 after
      deconfiguring, and the number of a known configuration (held under its own
      number) after selecting it. */
  lemma {:induction false} SetThenGetConfiguration(setRequest: ControlRequest, getRequest: ControlRequest, before: ControlState,
                                                   configurations: map<int, Configuration>, descriptor: DescriptorReply)
    requires KeyedByNumber(configurations)
    requires setRequest.value == 0 || (setRequest.value in configurations && setRequest.value < 0x100)
    ensures var after := StandardStep(SetConfigurationHandler, setRequest, before, configurations, descriptor).after;
      StandardStep(GetConfigurationHandler, getRequest, after, configurations, descriptor).events == [Reply([setRequest.value])]
  {
    if setRequest.value != 0 {
      assert configurations[setRequest.value].number == setRequest.value;
    }
  }

  /** GET_INTERFACE replies [0] exactly when a configuration is active and the
      requested interface belongs to it, and stalls otherwise; SET_INTERFACE
      acknowledges exactly interface 0. */
  lemma InterfaceRequests(request: ControlRequest, before: ControlState,
                          configurations: map<int, Configuration>, descriptor: DescriptorReply)
    ensures var s := StandardStep(GetInterfaceHandler, request, before, configurations, descriptor);
      (s.events == [Reply([0])] <==>
        before.configuration.Some? && request.IndexLow() in before.configuration.value.interfaces) &&
      (s.events == [RequestStall] <==>
        !(before.configuration.Some? && request.IndexLow() in before.configuration.value.interfaces))
    ensures var s := StandardStep(SetInterfaceHandler, request, before, configurations, descriptor);
      (s.events == [Acknowledge(false)] <==> request.IndexLow() == 0) &&
      (s.events == [RequestStall] <==> request.IndexLow() != 0)
  {
  }
}

=== FILE: usb_types.dfy ===
/** Values shared by the whole device model: bytes and 16-bit words, the decoded
    setup packet of a control transfer, the configuration tree the device owns,
    and the events the device emits towards its backend and towards the host. */
module UsbTypes {

  /** An unsigned 8-bit value; a Python `bytearray` refuses anything else. */
  type byte = x: int | 0 <= x < 0x100

  /** An unsigned 16-bit field of a setup packet (wValue, wIndex, wLength). */
  type uint16 = x: int | 0 <= x < 0x1_0000

  datatype Option<+T> = None | Some(value: T)

  function Min(a: int, b: int): int { if a <= b then a else b }

  predicate IsByte(x: int) { 0 <= x < 0x100 }

  /** Low byte of a Python int, `x & 0xff` (Dafny's `%` floors like Python's). */
  function Low(x: int): byte { x % 0x100 }

  /** Second byte of a Python int, `(x >> 8) & 0xff`. */
  function High(x: int): byte { (x / 0x100) % 0x100 }

  // Standard request numbers, table 9-4 of the USB 2.0 specification.
  const GET_STATUS: byte := 0
  const CLEAR_FEATURE: byte := 1
  const SET_FEATURE: byte := 3
  const SET_ADDRESS: byte := 5
  const GET_DESCRIPTOR: byte := 6
  const SET_DESCRIPTOR: byte := 7
  const GET_CONFIGURATION: byte := 8
  const SET_CONFIGURATION: byte := 9
  const GET_INTERFACE: byte := 10
  const SET_INTERFACE: byte := 11
  const SYNCH_FRAME: byte := 12

  // Descriptor type tags, table 9-5 of the USB 2.0 specification.
  const DEVICE_DESCRIPTOR: byte := 1
  const CONFIGURATION_DESCRIPTOR: byte := 2
  const STRING_DESCRIPTOR: byte := 3

  /** The default (and most widely supported) language ID, English (United States). */
  const ENGLISH_US: int := 0x0409

  datatype Direction = Out | In

  datatype RequestType = Standard | Class | Vendor | Reserved

  datatype Recipient = ToDevice | ToInterface | ToEndpoint | ToOther

  /** A control request, decoded from its 8-byte setup packet, plus the data
      stage of an OUT request. */
  datatype ControlRequest = ControlRequest(
    direction: Direction,
    requestType: RequestType,
    recipient: Recipient,
    number: byte,
    value: uint16,
    index: uint16,
    length: uint16,
    data: seq<byte>)
  {
    function ValueHigh(): byte { value / 0x100 }
    function ValueLow(): byte { value % 0x100 }
    function IndexLow(): byte { index % 0x100 }
  }

  /** A non-control endpoint of a configuration; its identity is (number, direction). */
  datatype Endpoint = Endpoint(number: int, direction: Direction, maxPacketSize: int)

  /** A configuration as the device sees it: its number, the numbers of its
      interfaces, its endpoints keyed by (number, direction), and the bytes its own
      `get_descriptor` produces. */
  datatype Configuration = Configuration(
    number: int,
    interfaces: set<int>,
    endpoints: map<(int, Direction), Endpoint>,
    descriptor: seq<byte>)

  /** A configuration's endpoints are held under their own (number, direction). */
  ghost predicate EndpointsKeyed(c: Configuration)
  {
    forall k :: k in c.endpoints ==> c.endpoints[k].number == k.0 && c.endpoints[k].direction == k.1
  }

  /** Configurations are held under their own configuration number. */
  ghost predicate KeyedByNumber(configurations: map<int, Configuration>)
  {
    forall n :: n in configurations ==> configurations[n].number == n
  }

  /** Everything the device does that is visible outside it, in order: calls on
      the backend, the terminal actions of the current control request (reply,
      acknowledge, stall), hand-offs to the active configuration or to an
      endpoint, and the device's own unexpected-data paths. */
  datatype Event =
    | SendOnEndpoint(endpointNumber: int, data: seq<byte>, blocking: bool)
    | StallEndpoint(endpointNumber: int, direction: Direction)
    | SetAddress(address: int, defer: bool)
    | Configured(configuration: Option<Configuration>)
    | BackendReset
    | Reply(data: seq<byte>)
    | Acknowledge(blocking: bool)
    | RequestStall
    | EndpointSend(endpoint: Endpoint, data: seq<byte>, blocking: bool)
    | ConfigurationDataReceived(endpoint: Endpoint, data: seq<byte>)
    | ConfigurationDataRequested(endpoint: Endpoint)
    | ConfigurationBufferEmpty(endpoint: Endpoint)
    | UnexpectedDataReceived(endpointNumber: int, data: seq<byte>)
    | UnexpectedDataRequested(endpointNumber: int)
  {
    /** Ends a control transfer: a reply, an acknowledgement or a stall of endpoint 0. */
    predicate Terminal() { Reply? || Acknowledge? || RequestStall? || (StallEndpoint? && endpointNumber == 0) }
  }

  /** How many events of a sequence end a control transfer. */
  function TerminalCount(events: seq<Event>): nat
  {
    if events == [] then 0
    else (if events[0].Terminal() then 1 else 0) + TerminalCount(events[1..])
  }
}
